=== FILE: README.md ===
# Scoring API request outcomes, modelled in Dafny

This project models the request-outcome logic of a small JSON-over-HTTP
"scoring" API (`api.py`) and the field descriptors it declares its requests
with (`fields.py`). It covers these parts:

- the field classes: their two flags, their defaults and their class hierarchy;
- the generic `Request` constructor, which binds and validates only the
  keyword arguments actually supplied;
- the three request classes, each as a schema of declared fields;
- `check_auth` and the `login_required` decorator;
- the `clients_interests` and `online_score` handlers;
- the outcome logic of `MainHTTPHandler.do_POST`: body decoding failure,
  falsy body, routing, the exception-to-status mapping and the
  `{"response" | "error", "code"}` envelope.

The model is functional. Python values are `Json.Value`, with Python
truthiness and `len()` written out. Exceptions are the `Requests.Raised`
datatype, carried in `Result`/`Outcome` values. The parts that lie outside
the program are parameters:

- SHA-512 is `hash: string -> string`;
- the wall clock is the hour string `hour`;
- per-field validation is `valid: (Field, Value) -> bool`, because
  `fields.py` defines no `validate`;
- `scoring.get_interests` is `interests: Value -> Option<Value>`, where `None`
  means it raised;
- the request id is the value `requestId`.

Modules follow the source:

- `Fields`: fields.py.
- `Requests`: `Request`, the request classes and their schemas.
- `Protocol`: status codes, `ERRORS` and the envelope.
- `Auth`: `check_auth` and `login_required`.
- `Handlers`: the router handlers.
- `Server`: `do_POST`.
- `Json` and `Wrappers`: value types shared by the modules above.

The service is meant to refuse a bad token with 403 and to reject invalid
arguments with 422. The code does neither, and the model follows the code:

- `do_POST` never calls `check_auth`. `login_required` is defined but is not
  applied to any router entry, so no outcome is 403
  (`Server.NoAuthOrUnprocessable`).
- A `ValidationError` during dispatch answers 400, not 422.
- Neither the per-kind validators nor the online-score pair rule exist in
  the code. Validation is the abstract `valid` parameter, and no pair rule is
  modelled.
- `online_score_handler` unpacks `request["body"]`, which is a
  `MethodRequest` object and not a mapping, with `**`. It therefore always
  raises `TypeError`, and `do_POST` answers 500 (`Server.OnlineScoreAlwaysFails`).

## Model

| member | source | states |
|---|---|---|
| Fields.Parent | fields.py:2-41 | each field class has exactly one direct base, `Field` alone has none, and every base is one level closer to `Field` |
| Fields.FieldDefaults | fields.py:3-5 | a field built without flags is optional (`required=False`) and nullable (`nullable=True`) and stores exactly those flags |
| Fields.EveryKindIsAField | fields.py:2-41 | every field class derives from `Field` |
| Fields.CharKinds | fields.py:8-41 | the classes deriving from `CharField` are exactly Char, Arguments, Email, Gender and ClientIDs (Gender is a Char kind) |
| Fields.DigitAndDateKinds | fields.py:12-33 | `DigitField` is specialised only by `PhoneField`, and `DateField` only by `BirthDayField` |
| Fields.BranchesDisjoint | fields.py:8-41 | every class other than `Field` lies in exactly one of the Char, Digit and Date branches |
| Json.Len | api.py:78 | `len()` is defined exactly on strings, lists and objects, and a sized value has length 0 exactly when it is falsy |
| Requests.FirstViolation | api.py:46-52 | the index returned is the first element the check rejects; `None` means every element passes |
| Requests.FirstViolationAt | api.py:46-52 | an element the check rejects, with every earlier element accepted, is the one reported |
| Requests.Construct | api.py:44-52 | the constructor succeeds exactly when every supplied key is declared and its value is valid, and then binds each supplied key to its declared field and value in order; it raises `AttributeError` exactly when some supplied key is undeclared, naming the first undeclared key in supply order; any other failure is a `ValidationError` naming the first supplied key whose value is invalid, every earlier key being declared and valid |
| Requests.OnlineScoreFieldsOptional | api.py:85-91 | every field of `OnlineScoreRequest` is declared optional and nullable |
| Requests.Bind | api.py:46-49 | the binding loop yields one bound field per supplied pair, in supply order, each holding its key, its declared field and its value |
| Requests.Attr | api.py:46-49 | an attribute read finds nothing exactly when no supplied key has that name, and otherwise the value of the last bound field with that name |
| Requests.ConstructLoop | api.py:44-52 | the two loops of the constructor, first binding and then validating, reach exactly the outcome `Construct` describes |
| Requests.ConstructChecksOnlySupplied | api.py:46-52 | only supplied pairs are validated: validators that agree on them give the same outcome |
| Requests.RequiredNotEnforced | api.py:44-60 | a `MethodRequest` built from no arguments succeeds although `login` is declared required |
| Requests.LastBoundSpec | api.py:46-49 | reading an attribute finds nothing exactly when no supplied key has that name, and otherwise finds the value set last |
| Requests.AttrOfConstructed | api.py:46-49 | an attribute of a request built from a dictionary is the value supplied under that key, and is missing when the key was not supplied |
| Requests.WrapAsWritten | api.py:47-48 | the wrapped field keeps the declared kind |
| Requests.WrapAsWrittenDropsFlags | api.py:47-48 | wrapping `client_ids=[1]` as written stores the list as `required` and resets `nullable` to True, whereas `Construct` keeps `required=True, nullable=False` and the value |
| Protocol.Envelope | api.py:188-194 | the envelope is a two-entry object whose second entry is `("code", code)` and whose first key is `error` exactly for codes in `ERRORS` and `response` otherwise |
| Protocol.EnvelopeReadBack | api.py:188-194 | the envelope always carries the final code; it has an `error` key exactly for codes in `ERRORS`, holding the response when that is non-empty and the code's phrase otherwise, so never an empty value; any other code carries the response unchanged |
| Protocol.EmptyErrorEnvelope | api.py:191-194 | an error code with an empty response is reported with its `ERRORS` phrase |
| Auth.IsAdminIff | api.py:62-64 | `is_admin` holds exactly when the supplied login is "admin" |
| Auth.DigestInput | api.py:94-101 | the admin digest input is the hour plus "42"; any other digest input is account, login and "Otus" concatenated; building it raises `TypeError` exactly when the login is not "admin" and account or login is not a supplied string |
| Auth.CheckAuth | api.py:94-104 | authentication succeeds exactly when the token equals the hash of the digest input; a request without a token never authenticates; when the digest input cannot be built, its `TypeError` propagates unchanged |
| Auth.AdminIgnoresAccount | api.py:95-98 | for the admin, two requests that differ only in `account` get the same decision |
| Auth.UserIgnoresClock | api.py:99-101 | for a non-admin login the decision does not depend on the hour |
| Auth.AdminTokenExpires | api.py:95-98 | with a collision-free hash, an admin token accepted in one hour is refused in every other hour |
| Auth.UserCheck | api.py:99-104 | a non-admin request with string credentials authenticates exactly with the hash of account + login + "Otus" |
| Auth.AccountLoginBoundaryAmbiguous | api.py:100-101 | account "ab" with login "c" and account "a" with login "bc" authenticate with the same tokens |
| Auth.Guard | api.py:107-115 | whenever `check_auth` holds, the wrapped handler's result is returned; when it fails, the denial pair is returned with the context unchanged; an exception from `check_auth` propagates with the context unchanged |
| Auth.LoginRequiredAsWritten | api.py:107-115 | an authenticated request gets the wrapped handler's result; a refused one gets the pair whose response is 403 and whose code is not in `ERRORS`, with the context unchanged |
| Auth.LoginRequired | api.py:107-115 | an authenticated request gets the wrapped handler's result; a refused one gets a reply with code 403, which is in `ERRORS`, with the context unchanged |
| Auth.LoginRequiredGuards | api.py:107-115 | for a request that does not authenticate, the result is the same for every wrapped handler; with the denial in `(response, code)` order a refusal would be enveloped as `{"error": "Forbidden", "code": 403}` |
| Auth.ForbiddenPairReversed | api.py:113 | as written, a refusal would be enveloped as the non-error envelope `{"response": 403, "code": "Forbidden"}` |
| Handlers.ClientsContext | api.py:75-79 | the context is `{"nclients": len(client_ids)}`; it raises exactly when `client_ids` was not supplied or has no length, and that exception is never a `ValidationError` |
| Handlers.ValidateClients | api.py:71-73 | `ValidationError` is raised exactly when the supplied `client_ids` is falsy; an unsupplied one raises a different exception |
| Handlers.ArgumentsOf | api.py:127 | the arguments can be unpacked exactly when `arguments` was supplied as an object, and then they are that object's entries; otherwise the exception is never a `ValidationError` |
| Handlers.Serve | api.py:128-131 | a returned result always has code 200 and comes with a positive `nclients`; only `nclients` may change in the context; it raises `ValidationError` exactly when `client_ids` was supplied with length 0 |
| Handlers.ClientsInterests | api.py:123-131 | the handler answers 200 whenever it returns, after recording a positive `nclients`; no other context key changes; an exception from unpacking `arguments` or from building `ClientsInterestsRequest` propagates unchanged with the context untouched |
| Handlers.ServeRecordsCount | api.py:128-131 | once `client_ids` has length n, `nclients = n` is recorded whatever happens next; `ValidationError` is raised exactly when n is 0; otherwise the backend's result is answered with 200 |
| Handlers.ClientsInterestsRecordsCount | api.py:123-131 | the same facts for the whole handler once its arguments build a `ClientsInterestsRequest`: an empty list still records `nclients = 0` |
| Handlers.OnlineScore | api.py:134-141 | the online-score handler always raises an exception other than `ValidationError` and leaves the context unchanged |
| Server.SkipSlashes | api.py:165 | returns the first index at or after the start that does not hold a slash; everything skipped is a slash |
| Server.BackSlashes | api.py:165 | returns the end after dropping trailing slashes, never moving below the start |
| Server.Strip | api.py:165 | the stripped path neither starts nor ends with a slash |
| Server.StripDecomposes | api.py:165 | every path is its stripped name surrounded by slashes only |
| Server.StripSurroundingSlashes | api.py:165 | a name surrounded by any number of slashes strips to that name |
| Server.StripIdempotent | api.py:165 | stripping twice is stripping once |
| Server.Route | api.py:145-148 | a result returned by any route carries code 200 |
| Server.Dispatch | api.py:169-175 | a body that is not an object raises `TypeError`; a failed `MethodRequest` construction is passed through unchanged; every returned result carries 200 |
| Server.Routed | api.py:169-181 | after dispatch the code is 200, 400 or 500; any code but 200 keeps the response `{}`; the `request_id` entry is kept |
| Server.Outcome | api.py:155-183 | the final code is one of 200, 400, 404 and 500, and the initial context entries survive |
| Server.Respond | api.py:188-194 | the envelope written carries the final code |
| Server.InitialContext | api.py:156 | the context starts with `request_id` and without `nclients` |
| Server.DoPost | api.py:154-198 | the envelope always carries the final code; the context keeps the request id; the code is 200, 400, 404 or 500 |
| Server.UnreadableBody | api.py:158-162 | an unreadable or undecodable body is answered `{"error": "Bad Request", "code": 400}` |
| Server.FalsyBody | api.py:164 | a decoded but falsy body skips routing on any path and is answered `{"response": {}, "code": 200}` |
| Server.UnknownPath | api.py:164-183 | a truthy body on a stripped path outside the router is answered `{"error": "Not Found", "code": 404}` |
| Server.DispatchFailures | api.py:169-181 | a `ValidationError` in dispatch is answered "Bad Request"/400, and any other exception "Internal Server Error"/500, because the response stays `{}` |
| Server.NoAuthOrUnprocessable | api.py:144-183 | no outcome is 403 or 422 |
| Server.OnlineScoreAlwaysFails | api.py:134-137 | a non-empty, constructible request to `online_score` is answered 500 |
| Server.ClientsInterestsPath | api.py:165-168 | the path "/clients_interests/" reaches the `clients_interests` route |
| Server.ReachesClientsInterests | api.py:164-181 | a constructible request on a path stripping to `clients_interests` is decided by `clients_interests_handler` |
| Server.ClientsInterestsOutcome | api.py:123-183 | once the request and its arguments are constructed with n client ids, the outcome is 400 with `{}` when n is 0, 500 with `{}` when the backend raises, and otherwise the backend's result with 200; in every case the context records `nclients = n` |
| Server.ClientsInterestsEndToEnd | api.py:123-194 | end to end, n > 0 client ids are answered `{"response": <backend result>, "code": 200}`, and the context records `nclients = n` |
| Server.EmptyClientIdsEndToEnd | api.py:123-194 | end to end, an empty `client_ids` is answered `{"error": "Bad Request", "code": 400}`, and the context records `nclients = 0` |

## Left out

- HTTP transport: reading the socket, `send_response`, the headers,
  `wfile` writes, the `OptionParser` command line, logging and the server
  loop are I/O. The final `context.update(r)` only feeds logging and is not
  modelled.
- JSON decoding is not modelled. The body is `Option<Value>`, and `None`
  stands for any exception raised while reading or decoding it.
  Floating-point JSON numbers are not part of `Value`.
- `get_request_id` uses a header lookup and `uuid4`. Its result is the
  parameter `requestId`.
- SHA-512 is an arbitrary `string -> string` function, and the clock is the
  formatted hour string. `hashlib.sha512` is handed a `str`, and Python 3
  requires bytes there; the model treats the hash as a function on strings.
- `scoring.get_interests` is not part of this model. Any failure it raises
  is taken to be an exception other than `ValidationError`.
- `api.py` imports `ValidationError` from `fields.py`, which does not define
  it, so the module cannot be imported as written. The model assumes the
  exception class exists.
- Field classes have no `validate` method and no `value` attribute. As
  written, the validation loop of `Request.__init__` would raise
  `AttributeError` for every supplied key, and `check_auth` would see field
  objects rather than strings. The model binds each supplied value to its
  declared field, reads attributes as those values, and validates with the
  abstract `valid` predicate.
- Requests.Construct: the `ValidationError` it raises carries the failing
  field's name, not the validator's own message, because the validators are
  abstract.
- Requests.Construct: keys that name non-field attributes of a request
  class (`is_admin`, `validate`, `context`, `generate_response`,
  `_api_fields`, dunder attributes) are treated like undeclared keys. In the
  source, some of these survive the binding loop and fail only in the
  validation loop. The key `self`, the parameter name of `Request.__init__`,
  makes Python raise `TypeError` (multiple values for `self`) before either
  loop runs, where the model raises `AttributeError`; both are answered 500.
- Router entries receive the constructed `MethodRequest` itself. The source
  passes them the dictionary `{"body": MethodRequest(**request), "headers":
  ...}`; `clients_interests_handler` unwraps it with `request.get("body")`,
  so its model is unaffected. A handler wrapped by `login_required` would be
  handed that dictionary, and `check_auth` reading `request.is_admin` would
  raise `AttributeError`, answered 500. `Auth.LoginRequired` and
  `Auth.LoginRequiredAsWritten` model the wrapper applied to the request
  object, as its signature `wrapper(request: MethodRequest, ...)` declares.
- The envelopes stated for `login_required` are what `do_POST` would build
  from its pair. `do_POST` sends the status line before building the
  envelope, with the code as it stands, so a non-integer code is not
  modelled as a status line.
- Decoded bodies are `Obj` values whose entry lists may repeat a key, which
  `json.loads` never produces: it keeps the last value. On repeated keys
  `Requests.Construct` binds and validates every occurrence; the statements
  about decoded bodies are meant for entry lists with distinct keys.
- `method_handler` is a stub that no route reaches, so it has no model. The
  `(None, None)` return of `online_score_handler` is unreachable.
- `OnlineScoreRequest` is declared as a schema but is never built
  successfully. The `GENDERS` table is unused.
- `ERRORS.get(code, "Unknown Error")` is evaluated only for codes in
  `ERRORS`, so its default is unreachable and is not modelled.

## Findings

| source | as written | input that shows it | evidently intended | confidence | as-written member | corrected member |
|---|---|---|---|---|---|---|
| api.py:113 | `login_required` denies with `(FORBIDDEN, ERRORS[FORBIDDEN])`, putting the code first, while handlers return `(response, code)` | a `MethodRequest` whose token does not match, passed to a wrapped handler | the pair `(ERRORS[FORBIDDEN], FORBIDDEN)`, which would be enveloped as `{"error": "Forbidden", "code": 403}` | high; not executed | Auth.ForbiddenPairReversed | Auth.LoginRequiredGuards |
| api.py:47-48 | `type(getattr(self, key))(value)` passes the supplied value as `required`, the first parameter of `Field.__init__`, and resets `nullable` to True | `ClientsInterestsRequest(client_ids=[1])`: the bound field has `required=[1]` and `nullable=True` | a bound field that keeps its declared flags and holds the value, which the validation loop reads as `field.value` | high; not executed | Requests.WrapAsWrittenDropsFlags | Requests.Construct |

=== FILE: auth.dfy ===
/**
 * `check_auth` and the `login_required` decorator. SHA-512 is an arbitrary
 * string function `hash` and the wall clock is the hour string it would
 * format (`%Y%m%d%H`); both are parameters.
 */
module Auth {
  import opened Wrappers
  import opened Json
  import opened Requests
  import opened Protocol

  const Salt := "Otus"
  const AdminLogin := "admin"
  const AdminSalt := "42"

  /** The hex digest function applied to the digest input. */
  type Hash = string -> string

  /** `MethodRequest.is_admin`: the supplied login is the string "admin". */
  predicate IsAdmin(req: Instance) {
    Attr(req, "login") == Some(Str(AdminLogin))
  }

  /**
   * The string `check_auth` hashes: the hour plus the admin salt for the
   * admin, otherwise account, login and salt concatenated. Concatenation
   * raises `TypeError` unless account and login are both supplied strings.
   */
  function DigestInput(req: Instance, hour: string): (r: Result<string, Raised>)
    ensures IsAdmin(req) ==> r == Success(hour + AdminSalt)
    ensures !IsAdmin(req) && r.Success? ==>
      exists a, l :: Attr(req, "account") == Some(Str(a)) && Attr(req, "login") == Some(Str(l)) && r.value == a + l + Salt
    ensures r.Failure? <==> !IsAdmin(req) && !(Attr(req, "account").Some? && Attr(req, "account").value.Str? &&
                                                Attr(req, "login").Some? && Attr(req, "login").value.Str?)
    ensures r.Failure? ==> r.error.TypeError?
  {
    if IsAdmin(req) then Success(hour + AdminSalt)
    else
      match (Attr(req, "account"), Attr(req, "login"))
      case (Some(Str(a)), Some(Str(l))) => Success(a + l + Salt)
      case _ => Failure(TypeError("can only concatenate str"))
  }

  /**
   * `check_auth`: true exactly when the token is the digest of the digest
   * input. A request without a token never authenticates.
   */
  function CheckAuth(req: Instance, hour: string, hash: Hash): (r: Result<bool, Raised>)
    ensures r.Failure? <==> DigestInput(req, hour).Failure?
    ensures r.Success? ==> (r.value <==> Attr(req, "token") == Some(Str(hash(DigestInput(req, hour).value))))
    ensures Attr(req, "token").None? ==> r != Success(true)
    ensures r.Failure? ==> r.error == DigestInput(req, hour).error
  {
    match DigestInput(req, hour)
    case Failure(e) => Failure(e)
    case Success(input) => Success(Attr(req, "token") == Some(Str(hash(input))))
  }

  /** Two requests that hold the same value for every attribute other than `name`. */
  ghost predicate SameExcept(r1: Instance, r2: Instance, name: string) {
    forall n :: n != name ==> Attr(r1, n) == Attr(r2, n)
  }

  /** The admin decision ignores the account entirely. */
  lemma AdminIgnoresAccount(r1: Instance, r2: Instance, hour: string, hash: Hash)
    requires IsAdmin(r1) && SameExcept(r1, r2, "account")
    ensures CheckAuth(r1, hour, hash) == CheckAuth(r2, hour, hash)
  {
    assert Attr(r1, "login") == Attr(r2, "login");
    assert Attr(r1, "token") == Attr(r2, "token");
  }

  /** A non-admin decision ignores the clock. */
  lemma UserIgnoresClock(req: Instance, h1: string, h2: string, hash: Hash)
    requires !IsAdmin(req)
    ensures CheckAuth(req, h1, hash) == CheckAuth(req, h2, hash)
  {
  }

  /** Appending the same suffix to two different strings keeps them different. */
  lemma SuffixCancels(a: string, b: string, suffix: string)
    requires a + suffix == b + suffix
    ensures a == b
  {
    assert |a| == |b|;
    assert a == (a + suffix)[..|a|];
    assert b == (b + suffix)[..|b|];
  }

  /**
   * With a collision-free hash, an admin token accepted in one hour is
   * refused in every other hour.
   */
  lemma AdminTokenExpires(req: Instance, h1: string, h2: string, hash: Hash)
    requires forall x, y :: hash(x) == hash(y) ==> x == y
    requires IsAdmin(req) && h1 != h2
    requires CheckAuth(req, h1, hash) == Success(true)
    ensures CheckAuth(req, h2, hash) == Success(false)
  {
    if hash(h1 + AdminSalt) == hash(h2 + AdminSalt) {
      SuffixCancels(h1, h2, AdminSalt);
    }
  }

  /** A constructed request holding exactly the given attributes. */
  function Credentials(account: string, login: string, token: string): Instance {
    Instance([
      Bound("account", MethodRequestSchema["account"], Str(account)),
      Bound("login", MethodRequestSchema["login"], Str(login)),
      Bound("token", MethodRequestSchema["token"], Str(token))
    ])
  }

  /** Reading the attributes of `Credentials` back. */
  lemma CredentialsRead(account: string, login: string, token: string)
    ensures Attr(Credentials(account, login, token), "account") == Some(Str(account))
    ensures Attr(Credentials(account, login, token), "login") == Some(Str(login))
    ensures Attr(Credentials(account, login, token), "token") == Some(Str(token))
  {
    var f := Credentials(account, login, token).fields;
    var g := f[..|f| - 1];
    assert g[..|g| - 1] == [f[0]];
    assert LastBound(f, "account") == LastBound(g, "account") == LastBound([f[0]], "account");
    assert LastBound(f, "login") == LastBound(g, "login");
  }

  /** `is_admin` holds exactly when the supplied login is "admin". */
  lemma IsAdminIff(account: string, login: string, token: string)
    ensures IsAdmin(Credentials(account, login, token)) <==> login == AdminLogin
  {
    CredentialsRead(account, login, token);
  }

  /** A non-admin request holding string credentials authenticates exactly with the digest of account, login and salt. */
  lemma UserCheck(account: string, login: string, token: string, hour: string, hash: Hash)
    requires login != AdminLogin
    ensures CheckAuth(Credentials(account, login, token), hour, hash) == Success(token == hash(account + login + Salt))
  {
    CredentialsRead(account, login, token);
  }

  /**
   * The account and login are concatenated without a separator, so account
   * "ab" with login "c" and account "a" with login "bc" share every token.
   */
  lemma AccountLoginBoundaryAmbiguous(hour: string, hash: Hash, token: string)
    ensures CheckAuth(Credentials("ab", "c", token), hour, hash) == CheckAuth(Credentials("a", "bc", token), hour, hash)
    ensures CheckAuth(Credentials("ab", "c", hash("ab" + "c" + Salt)), hour, hash) == Success(true)
  {
    assert "ab" + "c" + Salt == "a" + "bc" + Salt;
    UserCheck("ab", "c", token, hour, hash);
    UserCheck("a", "bc", token, hour, hash);
    var d := hash("ab" + "c" + Salt);
    UserCheck("ab", "c", d, hour, hash);
  }

  /**
   * The wrapper `login_required` builds: the wrapped handler runs only when
   * `check_auth` holds; otherwise the `denied` pair is returned, and an
   * exception from `check_auth` propagates.
   */
  function Guard(inner: Handler, denied: Reply, req: Instance, ctx: Ctx, hour: string, hash: Hash): (d: Dispatched)
    ensures CheckAuth(req, hour, hash) == Success(true) ==> d == inner(req, ctx)
    ensures CheckAuth(req, hour, hash) != Success(true) ==> d.ctx == ctx
    ensures CheckAuth(req, hour, hash) == Success(false) ==> d == Dispatched(Success(denied), ctx)
    ensures CheckAuth(req, hour, hash).Failure? ==> d.outcome == Failure(CheckAuth(req, hour, hash).error)
  {
    match CheckAuth(req, hour, hash)
    case Failure(e) => Dispatched(Failure(e), ctx)
    case Success(ok) => if ok then inner(req, ctx) else Dispatched(Success(denied), ctx)
  }

  /** `login_required` as written: it returns `(FORBIDDEN, ERRORS[FORBIDDEN])`, code first. */
  function LoginRequiredAsWritten(inner: Handler, req: Instance, ctx: Ctx, hour: string, hash: Hash): (d: Dispatched)
    ensures CheckAuth(req, hour, hash) == Success(true) ==> d == inner(req, ctx)
    ensures CheckAuth(req, hour, hash) == Success(false) ==>
      d.ctx == ctx && d.outcome.Success? && d.outcome.value.response == Int(Forbidden) &&
      !InErrors(d.outcome.value.code)
  {
    Guard(inner, Reply(Int(Forbidden), Str(Errors[Forbidden])), req, ctx, hour, hash)
  }

  /** `login_required` with the denial in the handlers' `(response, code)` order. */
  function LoginRequired(inner: Handler, req: Instance, ctx: Ctx, hour: string, hash: Hash): (d: Dispatched)
    ensures CheckAuth(req, hour, hash) == Success(true) ==> d == inner(req, ctx)
    ensures CheckAuth(req, hour, hash) == Success(false) ==>
      d.ctx == ctx && d.outcome.Success? && d.outcome.value.code == Int(Forbidden) &&
      InErrors(d.outcome.value.code)
  {
    Guard(inner, Reply(Str(Errors[Forbidden]), Int(Forbidden)), req, ctx, hour, hash)
  }

  /**
   * The wrapped handler is consulted only for authenticated requests: for
   * any other request every handler yields the same result, and a refused
   * request is answered with a 403 error envelope.
   */
  lemma LoginRequiredGuards(inner1: Handler, inner2: Handler, req: Instance, ctx: Ctx, hour: string, hash: Hash)
    ensures CheckAuth(req, hour, hash) != Success(true) ==>
      LoginRequired(inner1, req, ctx, hour, hash) == LoginRequired(inner2, req, ctx, hour, hash)
    ensures CheckAuth(req, hour, hash) == Success(false) ==>
      var d := LoginRequired(inner1, req, ctx, hour, hash);
      d.outcome.Success? && Envelope(d.outcome.value.response, d.outcome.value.code) ==
        Obj([("error", Str("Forbidden")), ("code", Int(403))])
  {
  }

  /**
   * As written, a refused request would be answered with the non-error
   * envelope `{"response": 403, "code": "Forbidden"}`.
   */
  lemma ForbiddenPairReversed(inner: Handler, req: Instance, ctx: Ctx, hour: string, hash: Hash)
    requires CheckAuth(req, hour, hash) == Success(false)
    ensures var d := LoginRequiredAsWritten(inner, req, ctx, hour, hash);
      d.outcome.Success? && !InErrors(d.outcome.value.code) &&
      Envelope(d.outcome.value.response, d.outcome.value.code) ==
        Obj([("response", Int(403)), ("code", Str("Forbidden"))])
  {
  }
}

=== FILE: fields.dfy ===
/**
 * The field descriptors of fields.py: a small class hierarchy whose only
 * state is the pair of flags every `Field` takes in its constructor.
 */
module Fields {
  import opened Wrappers
  import opened Json

  /** One constructor per class of fields.py; `Base` is `Field` itself. */
  datatype Kind =
    | Base
    | Char
    | Digit
    | Date
    | Arguments
    | Email
    | Phone
    | BirthDay
    | Gender
    | ClientIDs

  /** Distance from `Field` in the class hierarchy. */
  function Depth(k: Kind): nat {
    match k
    case Base => 0
    case Char | Digit | Date => 1
    case _ => 2
  }

  /** The direct base class of each field class. */
  function Parent(k: Kind): (p: Option<Kind>)
    ensures p.None? <==> k == Base
    ensures p.Some? ==> Depth(p.value) + 1 == Depth(k)
  {
    match k
    case Base => None
    case Char | Digit | Date => Some(Base)
    case Arguments | Email | Gender | ClientIDs => Some(Char)
    case Phone => Some(Digit)
    case BirthDay => Some(Date)
  }

  /** `issubclass(k, a)`: `a` is `k` or one of its ancestors. */
  predicate DerivesFrom(k: Kind, a: Kind)
    decreases Depth(k)
  {
    k == a || (Parent(k).Some? && DerivesFrom(Parent(k).value, a))
  }

  /**
   * A field descriptor. The flags are whatever objects the constructor was
   * given; when none are given `required` is `False` and `nullable` is `True`.
   * No subclass adds a further attribute or any behaviour.
   */
  datatype Field = Field(kind: Kind, required: Value := Bool(false), nullable: Value := Bool(true))

  /** Leaving out the flags yields an optional, nullable field of any kind. */
  lemma FieldDefaults(k: Kind)
    ensures Field(k) == Field(k, Bool(false), Bool(true))
    ensures !Truthy(Field(k).required) && Truthy(Field(k).nullable)
  {
  }

  /** Every kind is a `Field`. */
  lemma {:induction false} EveryKindIsAField(k: Kind)
    ensures DerivesFrom(k, Base)
    decreases Depth(k)
  {
    if k != Base {
      EveryKindIsAField(Parent(k).value);
    }
  }

  /** The classes deriving from `CharField`: Gender is among them, Phone is not. */
  lemma CharKinds(k: Kind)
    ensures DerivesFrom(k, Char) <==> k in {Char, Arguments, Email, Gender, ClientIDs}
  {
  }

  /** `DigitField` has exactly one subclass, `PhoneField`; `DateField` only `BirthDayField`. */
  lemma DigitAndDateKinds(k: Kind)
    ensures DerivesFrom(k, Digit) <==> k in {Digit, Phone}
    ensures DerivesFrom(k, Date) <==> k in {Date, BirthDay}
  {
  }

  /** Below `Field` the hierarchy is three disjoint branches. */
  lemma BranchesDisjoint(k: Kind)
    ensures k != Base ==>
      (DerivesFrom(k, Char) && !DerivesFrom(k, Digit) && !DerivesFrom(k, Date)) ||
      (!DerivesFrom(k, Char) && DerivesFrom(k, Digit) && !DerivesFrom(k, Date)) ||
      (!DerivesFrom(k, Char) && !DerivesFrom(k, Digit) && DerivesFrom(k, Date))
  {
    CharKinds(k);
    DigitAndDateKinds(k);
  }
}

=== FILE: handlers.dfy ===
/**
 * The two router handlers of api.py and the `ClientsInterestsRequest`
 * methods the first one calls. The interests backend is a parameter.
 */
module Handlers {
  import opened Wrappers
  import opened Json
  import opened Requests
  import opened Protocol

  /** `get_interests` on the client ids; `None` when it raises. */
  type Interests = Value -> Option<Value>

  /**
   * `ClientsInterestsRequest.context`: `{"nclients": len(client_ids)}`.
   * Reading `.value` of an unsupplied `client_ids` raises `AttributeError`;
   * `len` of an unsized value raises `TypeError`.
   */
  function ClientsContext(req: Instance): (r: Result<Ctx, Raised>)
    ensures r.Success? <==> Attr(req, "client_ids").Some? && Len(Attr(req, "client_ids").value).Some?
    ensures r.Success? ==> r.value.Keys == {"nclients"}
    ensures r.Success? ==> r.value["nclients"] == Int(Len(Attr(req, "client_ids").value).value)
    ensures r.Failure? ==> !r.error.ValidationError?
  {
    match Attr(req, "client_ids")
    case None => Failure(AttributeError("value"))
    case Some(ids) =>
      match Len(ids)
      case None => Failure(TypeError("object has no len()"))
      case Some(n) => Success(map["nclients" := Int(n)])
  }

  /** `ClientsInterestsRequest.validate`: rejects a falsy `client_ids`. */
  function ValidateClients(req: Instance): (r: Outcome<Raised>)
    ensures r.Fail? && r.error.ValidationError? <==>
      Attr(req, "client_ids").Some? && !Truthy(Attr(req, "client_ids").value)
    ensures r.Fail? && !r.error.ValidationError? <==> Attr(req, "client_ids").None?
  {
    match Attr(req, "client_ids")
    case None => Fail(AttributeError("value"))
    case Some(ids) =>
      if !Truthy(ids) then Fail(ValidationError("Client_ids field cannot be empty")) else Pass
  }

  /** The bound `arguments` of a `MethodRequest`, as keyword arguments. */
  function ArgumentsOf(req: Instance): (r: Result<seq<(string, Value)>, Raised>)
    ensures r.Success? <==> Attr(req, "arguments").Some? && Attr(req, "arguments").value.Obj?
    ensures r.Success? ==> Attr(req, "arguments") == Some(Obj(r.value))
    ensures r.Failure? ==> !r.error.ValidationError?
  {
    match Attr(req, "arguments")
    case None => Failure(AttributeError("value"))
    case Some(Obj(entries)) => Success(entries)
    case Some(_) => Failure(TypeError("argument after ** must be a mapping"))
  }

  /**
   * The part of `clients_interests_handler` after the request is built:
   * merge its context into `ctx`, validate, then ask the backend.
   */
  function Serve(ci: Instance, ctx: Ctx, interests: Interests): (d: Dispatched)
    ensures d.outcome.Success? ==> d.outcome.value.code == Int(Ok)
    ensures d.outcome.Success? ==> "nclients" in d.ctx && d.ctx["nclients"].Int? && d.ctx["nclients"].i > 0
    ensures d.ctx.Keys <= ctx.Keys + {"nclients"}
    ensures forall k :: k in ctx && k != "nclients" ==> k in d.ctx && d.ctx[k] == ctx[k]
    ensures (d.outcome.Failure? && d.outcome.error.ValidationError?) <==>
      Attr(ci, "client_ids").Some? && Len(Attr(ci, "client_ids").value) == Some(0)
  {
    match ClientsContext(ci)
    case Failure(e) => Dispatched(Failure(e), ctx)
    case Success(c) =>
      var ctx' := ctx + c;
      match ValidateClients(ci)
      case Fail(e) => Dispatched(Failure(e), ctx')
      case Pass =>
        match interests(Attr(ci, "client_ids").value)
        case None => Dispatched(Failure(StoreFailure), ctx')
        case Some(response) => Dispatched(Success(Reply(response, Int(Ok))), ctx')
  }

  /**
   * `clients_interests_handler`: build a `ClientsInterestsRequest` from the
   * arguments, merge its context into `ctx`, validate, then ask the backend.
   * It answers 200 whenever it returns, and only after recording a
   * positive client count; apart from `nclients` the context is untouched.
   */
  function ClientsInterests(req: Instance, ctx: Ctx, valid: Validator, interests: Interests): (d: Dispatched)
    ensures d.outcome.Success? ==> d.outcome.value.code == Int(Ok)
    ensures d.outcome.Success? ==> "nclients" in d.ctx && d.ctx["nclients"].Int? && d.ctx["nclients"].i > 0
    ensures d.ctx.Keys <= ctx.Keys + {"nclients"}
    ensures forall k :: k in ctx && k != "nclients" ==> k in d.ctx && d.ctx[k] == ctx[k]
    ensures ArgumentsOf(req).Failure? ==> d == Dispatched(Failure(ArgumentsOf(req).error), ctx)
    ensures ArgumentsOf(req).Success? && Construct(ClientsInterestsSchema, ArgumentsOf(req).value, valid).Failure? ==>
      d == Dispatched(Failure(Construct(ClientsInterestsSchema, ArgumentsOf(req).value, valid).error), ctx)
  {
    match ArgumentsOf(req)
    case Failure(e) => Dispatched(Failure(e), ctx)
    case Success(args) =>
      match Construct(ClientsInterestsSchema, args, valid)
      case Failure(e) => Dispatched(Failure(e), ctx)
      case Success(ci) => Serve(ci, ctx, interests)
  }

  /** Merging the context of `n` client ids sets `nclients` and nothing else. */
  lemma MergeCount(ctx: Ctx, n: nat)
    ensures ctx + map["nclients" := Int(n)] == ctx["nclients" := Int(n)]
  {
  }

  /**
   * For a built request whose `client_ids` has length `n`: the count is
   * recorded whatever happens next, `ValidationError` is raised exactly
   * when `n` is 0, and otherwise the backend's result is answered with 200.
   */
  lemma ServeRecordsCount(ci: Instance, ctx: Ctx, interests: Interests, ids: Value, n: nat)
    requires Attr(ci, "client_ids") == Some(ids) && Len(ids) == Some(n)
    ensures Serve(ci, ctx, interests).ctx == ctx["nclients" := Int(n)]
    ensures (Serve(ci, ctx, interests).outcome.Failure? &&
             Serve(ci, ctx, interests).outcome.error.ValidationError?) <==> n == 0
    ensures n > 0 && interests(ids).Some? ==>
      Serve(ci, ctx, interests).outcome == Success(Reply(interests(ids).value, Int(Ok)))
  {
    assert ClientsContext(ci) == Success(map["nclients" := Int(n)]);
    MergeCount(ctx, n);
  }

  /** Once the arguments build a `ClientsInterestsRequest`, the handler serves it. */
  lemma ClientsInterestsServes(req: Instance, ctx: Ctx, valid: Validator, interests: Interests,
                               args: seq<(string, Value)>, ci: Instance)
    requires Attr(req, "arguments") == Some(Obj(args))
    requires Construct(ClientsInterestsSchema, args, valid) == Success(ci)
    ensures ClientsInterests(req, ctx, valid, interests) == Serve(ci, ctx, interests)
  {
  }

  /**
   * The handler as a whole: once the `ClientsInterestsRequest` is built
   * with a sized `client_ids`, its length is recorded in the context
   * whatever happens next, and the request is rejected with
   * `ValidationError` exactly when it is empty; a non-empty list is
   * answered with the backend's result and 200.
   */
  lemma ClientsInterestsRecordsCount(req: Instance, ctx: Ctx, valid: Validator, interests: Interests,
                                     args: seq<(string, Value)>, ci: Instance, ids: Value, n: nat)
    requires Attr(req, "arguments") == Some(Obj(args))
    requires Construct(ClientsInterestsSchema, args, valid) == Success(ci)
    requires Attr(ci, "client_ids") == Some(ids) && Len(ids) == Some(n)
    ensures ClientsInterests(req, ctx, valid, interests).ctx == ctx["nclients" := Int(n)]
    ensures (ClientsInterests(req, ctx, valid, interests).outcome.Failure? &&
             ClientsInterests(req, ctx, valid, interests).outcome.error.ValidationError?) <==> n == 0
    ensures n > 0 && interests(ids).Some? ==>
      ClientsInterests(req, ctx, valid, interests).outcome == Success(Reply(interests(ids).value, Int(Ok)))
  {
    ClientsInterestsServes(req, ctx, valid, interests, args, ci);
    ServeRecordsCount(ci, ctx, interests, ids, n);
  }

  /**
   * `online_score_handler`: `OnlineScoreRequest(**request["body"])` unpacks
   * a `MethodRequest` object, which is not a mapping, so the handler always
   * raises `TypeError` before reaching its `(None, None)` return.
   */
  function OnlineScore(req: Instance, ctx: Ctx): (d: Dispatched)
    ensures d.outcome.Failure? && !d.outcome.error.ValidationError?
    ensures d.ctx == ctx
  {
    Dispatched(Failure(TypeError("argument after ** must be a mapping")), ctx)
  }
}

=== FILE: json.dfy ===
/**
 * Decoded JSON values as the server sees them after `json.loads`, together
 * with the two Python built-ins the request logic applies to them:
 * truthiness (`if request:`, `not value`, `response or ...`) and `len()`.
 */
module Json {
  import opened Wrappers

  /** A decoded JSON document. Objects keep their keys in insertion order. */
  datatype Value =
    | Null
    | Bool(b: bool)
    | Int(i: int)
    | Str(s: string)
    | Arr(items: seq<Value>)
    | Obj(entries: seq<(string, Value)>)

  /** The empty object `{}`. */
  const EmptyObj: Value := Obj([])

  /** Python truthiness: `None`, `False`, `0` and empty containers are false. */
  predicate Truthy(v: Value) {
    match v
    case Null => false
    case Bool(b) => b
    case Int(i) => i != 0
    case Str(s) => |s| > 0
    case Arr(items) => |items| > 0
    case Obj(entries) => |entries| > 0
  }

  /** Python `len(v)`; `None` where `len` raises `TypeError`. */
  function Len(v: Value): (r: Option<nat>)
    ensures r.Some? <==> v.Str? || v.Arr? || v.Obj?
    ensures r.Some? ==> (r.value == 0 <==> !Truthy(v))
  {
    match v
    case Str(s) => Some(|s|)
    case Arr(items) => Some(|items|)
    case Obj(entries) => Some(|entries|)
    case _ => None
  }

  /** The keys of an object's entries are pairwise distinct, as in a Python dict. */
  predicate DistinctKeys(entries: seq<(string, Value)>) {
    forall i, j :: 0 <= i < j < |entries| ==> entries[i].0 != entries[j].0
  }

  /** Dictionary lookup `d.get(key)` on the entries of an object. */
  function Get(entries: seq<(string, Value)>, key: string): (r: Option<Value>)
    ensures r.None? <==> forall k :: 0 <= k < |entries| ==> entries[k].0 != key
    ensures r.Some? ==> exists k :: 0 <= k < |entries| && entries[k] == (key, r.value)
  {
    if |entries| == 0 then None
    else if entries[0].0 == key then Some(entries[0].1)
    else
      var rest := Get(entries[1..], key);
      assert forall k :: 1 <= k < |entries| ==> entries[k] == entries[1..][k - 1];
      rest
  }
}

=== FILE: protocol.dfy ===
/**
 * Status codes, the `ERRORS` phrase table, the `(response, code)` pair a
 * handler returns and the JSON envelope `do_POST` writes back.
 */
module Protocol {
  import opened Wrappers
  import opened Json
  import opened Requests

  const Ok := 200
  const BadRequest := 400
  const Forbidden := 403
  const NotFound := 404
  const InvalidRequest := 422
  const InternalError := 500

  /** The default phrase of every status code that counts as an error. */
  const Errors: map<int, string> := map[
    BadRequest := "Bad Request",
    Forbidden := "Forbidden",
    NotFound := "Not Found",
    InvalidRequest := "Invalid Request",
    InternalError := "Internal Server Error"
  ]

  /** `code in ERRORS`; the code is whatever object the handler returned. */
  predicate InErrors(code: Value) {
    code.Int? && code.i in Errors
  }

  /** The `(response, code)` pair a handler returns. */
  datatype Reply = Reply(response: Value, code: Value)

  /** The per-request context dictionary handlers may extend. */
  type Ctx = map<string, Value>

  /** What running a handler leaves behind: its result or exception, and the context. */
  datatype Dispatched = Dispatched(outcome: Result<Reply, Raised>, ctx: Ctx)

  /**
   * A router entry: called with the constructed `MethodRequest` and the
   * context (the source wraps the request in a `{"body", "headers"}` dictionary,
   * which the handlers unwrap).
   */
  type Handler = (Instance, Ctx) -> Dispatched

  /**
   * The body `do_POST` writes: `{"error": ..., "code": ...}` for a code in
   * `ERRORS`, where an empty response is replaced by the code's phrase, and
   * `{"response": ..., "code": ...}` for any other code.
   */
  function Envelope(response: Value, code: Value): (r: Value)
    ensures r.Obj? && |r.entries| == 2
    ensures r.entries[1] == ("code", code)
    ensures r.entries[0].0 == "error" <==> InErrors(code)
    ensures r.entries[0].0 == "response" <==> !InErrors(code)
  {
    if InErrors(code) then
      Obj([("error", if Truthy(response) then response else Str(Errors[code.i])), ("code", code)])
    else
      Obj([("response", response), ("code", code)])
  }

  /**
   * Reading the envelope back: it always carries the final code; it has an
   * `error` key exactly for codes in `ERRORS`, whose value is never empty
   * and is the response when that is non-empty and the code's phrase
   * otherwise; every other code carries the response unchanged.
   */
  lemma EnvelopeReadBack(response: Value, code: Value)
    ensures Get(Envelope(response, code).entries, "code") == Some(code)
    ensures Get(Envelope(response, code).entries, "error").Some? <==> InErrors(code)
    ensures Get(Envelope(response, code).entries, "response").Some? <==> !InErrors(code)
    ensures !InErrors(code) ==> Get(Envelope(response, code).entries, "response") == Some(response)
    ensures InErrors(code) ==> Truthy(Get(Envelope(response, code).entries, "error").value)
    ensures InErrors(code) && Truthy(response) ==> Get(Envelope(response, code).entries, "error") == Some(response)
    ensures InErrors(code) && !Truthy(response) ==> Get(Envelope(response, code).entries, "error") == Some(Str(Errors[code.i]))
  {
    var e := Envelope(response, code).entries;
    assert e[1] == ("code", code);
    assert e[1..][0] == ("code", code);
  }

  /** An error code with an empty response is reported with its default phrase. */
  lemma EmptyErrorEnvelope(code: int)
    requires code in Errors
    ensures Envelope(EmptyObj, Int(code)) == Obj([("error", Str(Errors[code])), ("code", Int(code))])
  {
  }
}

=== FILE: requests.dfy ===
/**
 * The generic `Request` constructor of api.py and the three request classes
 * declared against it. A request class is modelled by its schema, the map
 * from attribute name to the field descriptor declared on the class; a
 * constructed request is the list of fields its constructor bound, in the
 * order the keyword arguments were supplied.
 */
module Requests {
  import opened Wrappers
  import opened Json
  import opened Fields

  /** The exceptions the modelled code raises. */
  datatype Raised =
    | ValidationError(message: string)
    | AttributeError(name: string)
    | TypeError(message: string)
    | StoreFailure

  /** The field descriptors a request class declares, by attribute name. */
  type Schema = map<string, Field>

  /**
   * Per-field validation. fields.py defines none, so which values a field
   * accepts is left as a parameter of the model.
   */
  type Validator = (Field, Value) -> bool

  /** A declared field bound to the value supplied for it. */
  datatype Bound = Bound(name: string, field: Field, value: Value)

  /** A constructed request: its bound fields in the order they were supplied. */
  datatype Instance = Instance(fields: seq<Bound>)

  const MethodRequestSchema: Schema := map[
    "account" := Field(Char, Bool(false), Bool(true)),
    "login" := Field(Char, Bool(true), Bool(true)),
    "method" := Field(Char, Bool(true), Bool(true)),
    "token" := Field(Char, Bool(true), Bool(true)),
    "arguments" := Field(Arguments, Bool(true), Bool(true))
  ]

  const ClientsInterestsSchema: Schema := map[
    "client_ids" := Field(ClientIDs, Bool(true), Bool(false)),
    "date" := Field(Date, Bool(false), Bool(true))
  ]

  const OnlineScoreSchema: Schema := map[
    "phone" := Field(Phone, Bool(false), Bool(true)),
    "email" := Field(Email, Bool(false), Bool(true)),
    "first_name" := Field(Char, Bool(false), Bool(true)),
    "last_name" := Field(Char, Bool(false), Bool(true)),
    "birthday" := Field(BirthDay, Bool(false), Bool(true)),
    "gender" := Field(Gender, Bool(false), Bool(true))
  ]

  /**
   * Every field of `OnlineScoreRequest` is declared optional and nullable.
   */
  lemma OnlineScoreFieldsOptional()
    ensures forall k :: k in OnlineScoreSchema ==>
      !Truthy(OnlineScoreSchema[k].required) && Truthy(OnlineScoreSchema[k].nullable)
  {
  }

  /** The index of the first element of `s` that `ok` rejects, if any. */
  function FirstViolation<T>(s: seq<T>, ok: T -> bool): (r: Option<nat>)
    ensures r.Some? ==> r.value < |s| && !ok(s[r.value])
    ensures r.Some? ==> forall k :: 0 <= k < r.value ==> ok(s[k])
    ensures r.None? <==> forall k :: 0 <= k < |s| ==> ok(s[k])
  {
    if |s| == 0 then None
    else if !ok(s[0]) then Some(0)
    else
      match FirstViolation(s[1..], ok)
      case None => None
      case Some(i) => Some(i + 1)
  }

  /** The first violation is the one before which `ok` accepts everything. */
  lemma {:induction false} FirstViolationAt<T>(s: seq<T>, ok: T -> bool, i: nat)
    requires i < |s| && !ok(s[i])
    requires forall k :: 0 <= k < i ==> ok(s[k])
    ensures FirstViolation(s, ok) == Some(i)
  {
    if i > 0 {
      assert forall k :: 0 <= k < i - 1 ==> s[1..][k] == s[k + 1];
      FirstViolationAt(s[1..], ok, i - 1);
    }
  }

  /** Whether every supplied key names a field the class declares. */
  predicate AllDeclared(schema: Schema, params: seq<(string, Value)>) {
    forall k :: 0 <= k < |params| ==> params[k].0 in schema
  }

  /** Binds every supplied value to the field its key declares. */
  function Bind(schema: Schema, params: seq<(string, Value)>): (b: seq<Bound>)
    requires AllDeclared(schema, params)
    ensures |b| == |params|
    ensures forall k :: 0 <= k < |params| ==> b[k] == Bound(params[k].0, schema[params[k].0], params[k].1)
  {
    seq(|params|, k requires 0 <= k < |params| => Bound(params[k].0, schema[params[k].0], params[k].1))
  }

  /**
   * `Request.__init__(**params)`: first every supplied key is looked up on
   * the class (an unknown key raises `AttributeError` before anything is
   * validated), then every bound field is validated in supply order and the
   * first rejected one raises `ValidationError`. Declared fields that were
   * not supplied are neither bound nor checked, so `required` is not enforced.
   */
  function Construct(schema: Schema, params: seq<(string, Value)>, valid: Validator): (r: Result<Instance, Raised>)
    ensures r.Success? <==>
      forall k :: 0 <= k < |params| ==> params[k].0 in schema && valid(schema[params[k].0], params[k].1)
    ensures r.Success? ==> r.value.fields == Bind(schema, params)
    ensures r.Failure? ==> r.error.AttributeError? || r.error.ValidationError?
    ensures r.Failure? && r.error.AttributeError? <==> !AllDeclared(schema, params)
    ensures r.Failure? && r.error.AttributeError? ==>
      r.error.name !in schema &&
      exists i :: 0 <= i < |params| && params[i].0 == r.error.name &&
        forall m :: 0 <= m < i ==> params[m].0 in schema
    ensures r.Failure? && r.error.ValidationError? ==>
      exists i :: 0 <= i < |params| && params[i].0 == r.error.message &&
        params[i].0 in schema && !valid(schema[params[i].0], params[i].1) &&
        forall m :: 0 <= m < i ==> params[m].0 in schema && valid(schema[params[m].0], params[m].1)
  {
    match FirstViolation(params, (p: (string, Value)) => p.0 in schema)
    case Some(i) => Failure(AttributeError(params[i].0))
    case None =>
      var bound := Bind(schema, params);
      match FirstViolation(bound, (b: Bound) => valid(b.field, b.value))
      case Some(j) => Failure(ValidationError(bound[j].name))
      case None => Success(Instance(bound))
  }

  /** The two loops of `Request.__init__`, computing the same outcome. */
  method ConstructLoop(schema: Schema, params: seq<(string, Value)>, valid: Validator) returns (r: Result<Instance, Raised>)
    ensures r == Construct(schema, params, valid)
  {
    var fields: seq<Bound> := [];
    var i := 0;
    while i < |params|
      invariant 0 <= i <= |params|
      invariant AllDeclared(schema, params[..i])
      invariant fields == Bind(schema, params[..i])
    {
      var key := params[i].0;
      if key !in schema {
        FirstViolationAt(params, (p: (string, Value)) => p.0 in schema, i);
        return Failure(AttributeError(key));
      }
      fields := fields + [Bound(key, schema[key], params[i].1)];
      i := i + 1;
    }
    assert params[..i] == params;
    var j := 0;
    while j < |fields|
      invariant 0 <= j <= |fields|
      invariant forall k :: 0 <= k < j ==> valid(fields[k].field, fields[k].value)
    {
      if !valid(fields[j].field, fields[j].value) {
        FirstViolationAt(fields, (b: Bound) => valid(b.field, b.value), j);
        return Failure(ValidationError(fields[j].name));
      }
      j := j + 1;
    }
    return Success(Instance(fields));
  }

  /** The first index at which `ok` fails depends only on `ok`'s answers on `s`. */
  lemma {:induction false} FirstViolationAgrees<T>(s: seq<T>, ok1: T -> bool, ok2: T -> bool)
    requires forall k :: 0 <= k < |s| ==> ok1(s[k]) == ok2(s[k])
    ensures FirstViolation(s, ok1) == FirstViolation(s, ok2)
  {
    if |s| > 0 {
      assert forall k :: 0 <= k < |s[1..]| ==> s[1..][k] == s[k + 1];
      FirstViolationAgrees(s[1..], ok1, ok2);
    }
  }

  /**
   * Only the supplied pairs are ever validated: two validators that agree on
   * them construct the same request or raise the same exception.
   */
  lemma ConstructChecksOnlySupplied(schema: Schema, params: seq<(string, Value)>, v1: Validator, v2: Validator)
    requires forall k :: 0 <= k < |params| && params[k].0 in schema ==>
      v1(schema[params[k].0], params[k].1) == v2(schema[params[k].0], params[k].1)
    ensures Construct(schema, params, v1) == Construct(schema, params, v2)
  {
    if AllDeclared(schema, params) {
      var bound := Bind(schema, params);
      FirstViolationAgrees(bound, (b: Bound) => v1(b.field, b.value), (b: Bound) => v2(b.field, b.value));
    }
  }

  /**
   * `required` is not enforced: a `MethodRequest` built from no arguments at
   * all succeeds even though `login`, `method`, `token` and `arguments` are
   * declared required, whatever the validator.
   */
  lemma RequiredNotEnforced(valid: Validator)
    ensures MethodRequestSchema["login"].required == Bool(true)
    ensures Construct(MethodRequestSchema, [], valid) == Success(Instance([]))
  {
  }

  /** The value bound last to `name` by successive `setattr` calls, if any. */
  function LastBound(fields: seq<Bound>, name: string): Option<Value> {
    if |fields| == 0 then None
    else if fields[|fields| - 1].name == name then Some(fields[|fields| - 1].value)
    else LastBound(fields[..|fields| - 1], name)
  }

  /**
   * `LastBound` finds nothing exactly when no field has that name, and
   * otherwise the value of the last field that has it.
   */
  lemma {:induction false} LastBoundSpec(fields: seq<Bound>, name: string)
    ensures LastBound(fields, name).None? <==> forall k :: 0 <= k < |fields| ==> fields[k].name != name
    ensures LastBound(fields, name).Some? ==>
      exists k :: 0 <= k < |fields| && fields[k].name == name && fields[k].value == LastBound(fields, name).value &&
                  forall m :: k < m < |fields| ==> fields[m].name != name
  {
    if |fields| > 0 && fields[|fields| - 1].name != name {
      var init := fields[..|fields| - 1];
      LastBoundSpec(init, name);
      assert forall k :: 0 <= k < |init| ==> init[k] == fields[k];
    }
  }

  /**
   * The value a request holds for attribute `name`; `None` when the attribute
   * is still the class-level descriptor (the key was not supplied).
   */
  function Attr(req: Instance, name: string): (r: Option<Value>)
    ensures r.None? <==> forall k :: 0 <= k < |req.fields| ==> req.fields[k].name != name
    ensures r.Some? ==>
      exists k :: 0 <= k < |req.fields| && req.fields[k].name == name && req.fields[k].value == r.value &&
                  forall m :: k < m < |req.fields| ==> req.fields[m].name != name
  {
    LastBoundSpec(req.fields, name);
    LastBound(req.fields, name)
  }

  /**
   * Reading back an attribute of a request built from a dictionary (distinct
   * keys) yields the value supplied under that key, and `None` for a key
   * that was not supplied.
   */
  lemma AttrOfConstructed(schema: Schema, params: seq<(string, Value)>, valid: Validator, name: string)
    requires DistinctKeys(params)
    requires Construct(schema, params, valid).Success?
    ensures Attr(Construct(schema, params, valid).value, name) == Get(params, name)
  {
    var fields := Construct(schema, params, valid).value.fields;
    LastBoundSpec(fields, name);
    assert forall k :: 0 <= k < |fields| ==> fields[k].name == params[k].0 && fields[k].value == params[k].1;
    match Get(params, name)
    case None =>
    case Some(v) =>
      var k :| 0 <= k < |params| && params[k] == (name, v);
      assert forall m :: 0 <= m < |params| && m != k ==> params[m].0 != name;
  }

  /**
   * The wrapping step as written: `type(getattr(self, key))(value)` passes
   * the supplied value as the first positional argument of `Field.__init__`,
   * i.e. as `required`, and leaves `nullable` at its default.
   */
  function WrapAsWritten(declared: Field, value: Value): (f: Field)
    ensures f.kind == declared.kind
  {
    Field(declared.kind, value)
  }

  /**
   * With `client_ids = [1]` the wrapped `ClientIDsField` loses its declared
   * `nullable=False` and keeps the list only as its `required` flag, while
   * `Construct` binds the declared field and the value unchanged.
   */
  lemma WrapAsWrittenDropsFlags(valid: Validator)
    requires valid(ClientsInterestsSchema["client_ids"], Arr([Int(1)]))
    ensures WrapAsWritten(ClientsInterestsSchema["client_ids"], Arr([Int(1)])) ==
      Field(ClientIDs, Arr([Int(1)]), Bool(true))
    ensures ClientsInterestsSchema["client_ids"].nullable == Bool(false)
    ensures Construct(ClientsInterestsSchema, [("client_ids", Arr([Int(1)]))], valid) ==
      Success(Instance([Bound("client_ids", Field(ClientIDs, Bool(true), Bool(false)), Arr([Int(1)]))]))
  {
    var params := [("client_ids", Arr([Int(1)]))];
    var bound := Bind(ClientsInterestsSchema, params);
    assert bound == [Bound("client_ids", Field(ClientIDs, Bool(true), Bool(false)), Arr([Int(1)]))];
    assert FirstViolation(params, (p: (string, Value)) => p.0 in ClientsInterestsSchema) == None;
    assert FirstViolation(bound, (b: Bound) => valid(b.field, b.value)) == None;
  }
}

=== FILE: server.dfy ===
/**
 * The request-outcome logic of `MainHTTPHandler.do_POST`: from the body
 * (or the failure to read and decode it) and the request path to the
 * status code, the JSON envelope and the logging context. Reading the
 * socket, decoding JSON, the request id and the writes are left outside.
 */
module Server {
  import opened Wrappers
  import opened Json
  import opened Requests
  import opened Protocol
  import opened Handlers

  /** The method names the router knows. */
  const Routes: set<string> := {"clients_interests", "online_score"}

  /** Whether every character of `s` is a slash. */
  predicate AllSlashes(s: string) {
    forall k :: 0 <= k < |s| ==> s[k] == '/'
  }

  /** The index of the first non-slash at or after `i` (the scan of `lstrip`). */
  function SkipSlashes(s: string, i: nat): (j: nat)
    requires i <= |s|
    ensures i <= j <= |s|
    ensures forall k :: i <= k < j ==> s[k] == '/'
    ensures j < |s| ==> s[j] != '/'
    decreases |s| - i
  {
    if i < |s| && s[i] == '/' then SkipSlashes(s, i + 1) else i
  }

  /** The end of `s[lo..j]` once its trailing slashes are dropped (the scan of `rstrip`). */
  function BackSlashes(s: string, lo: nat, j: nat): (e: nat)
    requires lo <= j <= |s|
    ensures lo <= e <= j
    ensures forall k :: e <= k < j ==> s[k] == '/'
    ensures e > lo ==> s[e - 1] != '/'
  {
    if j > lo && s[j - 1] == '/' then BackSlashes(s, lo, j - 1) else j
  }

  /**
   * `path.strip("/")`: the path without its leading and trailing slashes.
   * What is left neither starts nor ends with a slash.
   */
  function Strip(path: string): (r: string)
    ensures |r| <= |path|
    ensures r == [] || (r[0] != '/' && r[|r| - 1] != '/')
  {
    var i := SkipSlashes(path, 0);
    path[i..BackSlashes(path, i, |path|)]
  }

  /** The path is the stripped name surrounded by slashes only. */
  lemma StripDecomposes(path: string)
    ensures exists a, b :: AllSlashes(a) && AllSlashes(b) && path == a + Strip(path) + b
  {
    var i := SkipSlashes(path, 0);
    var e := BackSlashes(path, i, |path|);
    var a, b := path[..i], path[e..];
    assert AllSlashes(a) && AllSlashes(b);
    assert path == a + Strip(path) + b;
  }

  /**
   * Surrounding a name that neither starts nor ends with a slash by any
   * number of slashes routes to that name, so "/clients_interests/" and
   * "clients_interests" reach the same handler.
   */
  lemma StripSurroundingSlashes(a: string, name: string, b: string)
    requires AllSlashes(a) && AllSlashes(b)
    requires name == [] || (name[0] != '/' && name[|name| - 1] != '/')
    ensures Strip(a + name + b) == name
  {
    var s := a + name + b;
    var i := SkipSlashes(s, 0);
    var e := BackSlashes(s, i, |s|);
    if name == [] {
      assert forall k :: 0 <= k < |s| ==> s[k] == '/';
      assert i == |s|;
    } else {
      assert s[|a|] == name[0] && s[|a| + |name| - 1] == name[|name| - 1];
      assert forall k :: 0 <= k < |a| ==> s[k] == a[k];
      assert forall k :: |a| + |name| <= k < |s| ==> s[k] == b[k - |a| - |name|];
      assert i == |a|;
      assert e == |a| + |name|;
      assert s[|a|..|a| + |name|] == name;
    }
  }

  /** `strip` is idempotent. */
  lemma StripIdempotent(path: string)
    ensures Strip(Strip(path)) == Strip(path)
  {
    var r := Strip(path);
    assert [] + r + [] == r;
    StripSurroundingSlashes([], r, []);
  }

  /** The router: the handler registered under a known method name. */
  function Route(name: string, req: Instance, ctx: Ctx, valid: Validator, interests: Interests): (d: Dispatched)
    requires name in Routes
    ensures d.outcome.Success? ==> d.outcome.value.code == Int(Ok)
    ensures forall k :: k in ctx && k != "nclients" ==> k in d.ctx && d.ctx[k] == ctx[k]
  {
    if name == "clients_interests" then ClientsInterests(req, ctx, valid, interests)
    else OnlineScore(req, ctx)
  }

  /**
   * The body of the `try` in `do_POST`: construct the `MethodRequest` from
   * the decoded body (`**request` raises `TypeError` unless it is an
   * object), then call the routed handler. Authentication is never checked.
   */
  function Dispatch(name: string, body: Value, ctx: Ctx, valid: Validator, interests: Interests): (d: Dispatched)
    requires name in Routes
    ensures !body.Obj? ==> d == Dispatched(Failure(TypeError("argument after ** must be a mapping")), ctx)
    ensures body.Obj? && Construct(MethodRequestSchema, body.entries, valid).Failure? ==>
      d == Dispatched(Failure(Construct(MethodRequestSchema, body.entries, valid).error), ctx)
    ensures d.outcome.Success? ==> d.outcome.value.code == Int(Ok)
    ensures forall k :: k in ctx && k != "nclients" ==> k in d.ctx && d.ctx[k] == ctx[k]
  {
    match body
    case Obj(entries) =>
      (match Construct(MethodRequestSchema, entries, valid)
       case Failure(e) => Dispatched(Failure(e), ctx)
       case Success(req) => Route(name, req, ctx, valid, interests))
    case _ => Dispatched(Failure(TypeError("argument after ** must be a mapping")), ctx)
  }

  /** The final response, code and context before the envelope is built. */
  datatype Step = Step(response: Value, code: Value, ctx: Ctx)

  /** What `do_POST` sends: the status code, the JSON envelope, and the context before the envelope is merged into it. */
  datatype Posted = Posted(code: Value, envelope: Value, context: Ctx)

  /**
   * The routed branch of `do_POST`: in dispatch `ValidationError` answers
   * 400 and every other exception 500, keeping the response `{}`; a
   * handler that returns supplies both response and code.
   */
  function Routed(name: string, request: Value, ctx: Ctx, valid: Validator, interests: Interests): (s: Step)
    requires name in Routes
    ensures s.code == Int(Ok) || s.code == Int(BadRequest) || s.code == Int(InternalError)
    ensures s.code != Int(Ok) ==> s.response == EmptyObj
    ensures forall k :: k in ctx && k != "nclients" ==> k in s.ctx && s.ctx[k] == ctx[k]
  {
    var d := Dispatch(name, request, ctx, valid, interests);
    match d.outcome
    case Success(reply) => Step(reply.response, reply.code, d.ctx)
    case Failure(e) => Step(EmptyObj, Int(if e.ValidationError? then BadRequest else InternalError), d.ctx)
  }

  /**
   * `do_POST` up to the envelope. `body` is `None` when reading or decoding
   * the body raised. A falsy body skips routing and keeps `({}, 200)`; an
   * unknown path answers 404.
   */
  function Outcome(body: Option<Value>, path: string, ctx: Ctx, valid: Validator, interests: Interests): (s: Step)
    ensures s.code == Int(Ok) || s.code == Int(BadRequest) || s.code == Int(NotFound) || s.code == Int(InternalError)
    ensures forall k :: k in ctx && k != "nclients" ==> k in s.ctx && s.ctx[k] == ctx[k]
  {
    match body
    case None => Step(EmptyObj, Int(BadRequest), ctx)
    case Some(request) =>
      if !Truthy(request) then Step(EmptyObj, Int(Ok), ctx)
      else if Strip(path) !in Routes then Step(EmptyObj, Int(NotFound), ctx)
      else Routed(Strip(path), request, ctx, valid, interests)
  }

  /** The reply built from the final response, code and context. */
  function Respond(s: Step): (p: Posted)
    ensures p.envelope.Obj? && Get(p.envelope.entries, "code") == Some(p.code)
  {
    EnvelopeReadBack(s.response, s.code);
    Posted(s.code, Envelope(s.response, s.code), s.ctx)
  }

  /** The context `do_POST` starts from. */
  function InitialContext(requestId: Value): (ctx: Ctx)
    ensures "request_id" in ctx && ctx["request_id"] == requestId
    ensures "nclients" !in ctx
  {
    assert |"request_id"| != |"nclients"|;
    map["request_id" := requestId]
  }

  /**
   * `do_POST`: the context starts as `{"request_id": requestId}` and keeps
   * it, and the envelope always carries the final code.
   */
  function DoPost(body: Option<Value>, path: string, requestId: Value, valid: Validator, interests: Interests): (p: Posted)
    ensures p.envelope.Obj? && Get(p.envelope.entries, "code") == Some(p.code)
    ensures "request_id" in p.context && p.context["request_id"] == requestId
    ensures p.code == Int(Ok) || p.code == Int(BadRequest) || p.code == Int(NotFound) || p.code == Int(InternalError)
  {
    Respond(Outcome(body, path, InitialContext(requestId), valid, interests))
  }

  /** `do_POST` answers with the envelope of whatever step its outcome reaches. */
  lemma DoPostOf(body: Option<Value>, path: string, requestId: Value, valid: Validator, interests: Interests, s: Step)
    requires Outcome(body, path, InitialContext(requestId), valid, interests) == s
    ensures DoPost(body, path, requestId, valid, interests) == Posted(s.code, Envelope(s.response, s.code), s.ctx)
  {
  }

  /** A body that could not be read or decoded is answered 400 "Bad Request". */
  lemma UnreadableBody(path: string, requestId: Value, valid: Validator, interests: Interests)
    ensures DoPost(None, path, requestId, valid, interests).envelope ==
      Obj([("error", Str("Bad Request")), ("code", Int(400))])
  {
    var s := Outcome(None, path, InitialContext(requestId), valid, interests);
    assert s.response == EmptyObj && s.code == Int(BadRequest);
    EmptyErrorEnvelope(BadRequest);
  }

  /** A decoded body that is falsy skips routing, whatever the path, and is answered `{}` with 200. */
  lemma FalsyBody(body: Value, path: string, requestId: Value, valid: Validator, interests: Interests)
    requires !Truthy(body)
    ensures DoPost(Some(body), path, requestId, valid, interests).envelope ==
      Obj([("response", EmptyObj), ("code", Int(200))])
  {
    var s := Outcome(Some(body), path, InitialContext(requestId), valid, interests);
    assert s.response == EmptyObj && s.code == Int(Ok);
  }

  /** A truthy body on a path that is not a method name is answered 404 "Not Found". */
  lemma UnknownPath(body: Value, path: string, requestId: Value, valid: Validator, interests: Interests)
    requires Truthy(body) && Strip(path) !in Routes
    ensures DoPost(Some(body), path, requestId, valid, interests).envelope ==
      Obj([("error", Str("Not Found")), ("code", Int(404))])
  {
    var s := Outcome(Some(body), path, InitialContext(requestId), valid, interests);
    assert s.response == EmptyObj && s.code == Int(NotFound);
    EmptyErrorEnvelope(NotFound);
  }

  /**
   * An exception during dispatch leaves the response `{}`, so the envelope
   * carries the default phrase: "Bad Request" for `ValidationError`,
   * "Internal Server Error" for anything else.
   */
  lemma DispatchFailures(body: Value, path: string, requestId: Value, valid: Validator, interests: Interests)
    requires Truthy(body) && Strip(path) in Routes
    requires Dispatch(Strip(path), body, InitialContext(requestId), valid, interests).outcome.Failure?
    ensures var e := Dispatch(Strip(path), body, InitialContext(requestId), valid, interests).outcome.error;
      DoPost(Some(body), path, requestId, valid, interests).envelope ==
        if e.ValidationError? then Obj([("error", Str("Bad Request")), ("code", Int(400))])
        else Obj([("error", Str("Internal Server Error")), ("code", Int(500))])
  {
    var ctx := InitialContext(requestId);
    var e := Dispatch(Strip(path), body, ctx, valid, interests).outcome.error;
    var s := Outcome(Some(body), path, ctx, valid, interests);
    assert s == Routed(Strip(path), body, ctx, valid, interests);
    if e.ValidationError? {
      assert s.response == EmptyObj && s.code == Int(BadRequest);
      EmptyErrorEnvelope(BadRequest);
    } else {
      assert s.response == EmptyObj && s.code == Int(InternalError);
      EmptyErrorEnvelope(InternalError);
    }
  }

  /**
   * No outcome is 403 or 422: authentication is never consulted on the way
   * to a handler, and argument validation failures answer 400.
   */
  lemma NoAuthOrUnprocessable(body: Option<Value>, path: string, requestId: Value, valid: Validator, interests: Interests)
    ensures DoPost(body, path, requestId, valid, interests).code != Int(Forbidden)
    ensures DoPost(body, path, requestId, valid, interests).code != Int(InvalidRequest)
  {
  }

  /** Every non-empty request that reaches `online_score` and is constructed is answered 500. */
  lemma OnlineScoreAlwaysFails(entries: seq<(string, Value)>, path: string, requestId: Value, valid: Validator, interests: Interests)
    requires Construct(MethodRequestSchema, entries, valid).Success?
    requires |entries| > 0 && Strip(path) == "online_score"
    ensures DoPost(Some(Obj(entries)), path, requestId, valid, interests).code == Int(InternalError)
  {
    var ctx := InitialContext(requestId);
    var req := Construct(MethodRequestSchema, entries, valid).value;
    assert Dispatch("online_score", Obj(entries), ctx, valid, interests) == OnlineScore(req, ctx);
    assert Outcome(Some(Obj(entries)), path, ctx, valid, interests).code == Int(InternalError);
  }

  /** The path "/clients_interests/" names the `clients_interests` route. */
  lemma ClientsInterestsPath()
    ensures Strip("/clients_interests/") == "clients_interests" && "clients_interests" in Routes
  {
    assert "/" + "clients_interests" + "/" == "/clients_interests/";
    StripSurroundingSlashes("/", "clients_interests", "/");
  }

  /** How `do_POST` reaches `clients_interests_handler` for a constructed envelope. */
  lemma ReachesClientsInterests(entries: seq<(string, Value)>, path: string, ctx: Ctx, valid: Validator, interests: Interests,
                                req: Instance)
    requires Construct(MethodRequestSchema, entries, valid) == Success(req) && |entries| > 0
    requires Strip(path) == "clients_interests"
    ensures var d := ClientsInterests(req, ctx, valid, interests);
      Outcome(Some(Obj(entries)), path, ctx, valid, interests) ==
        if d.outcome.Success? then Step(d.outcome.value.response, d.outcome.value.code, d.ctx)
        else Step(EmptyObj, Int(if d.outcome.error.ValidationError? then BadRequest else InternalError), d.ctx)
  {
    assert Dispatch("clients_interests", Obj(entries), ctx, valid, interests) == ClientsInterests(req, ctx, valid, interests);
    assert Outcome(Some(Obj(entries)), path, ctx, valid, interests) ==
      Routed("clients_interests", Obj(entries), ctx, valid, interests);
  }

  /** A step that reaches 200 is answered with its response under `"response"`. */
  lemma AnsweredOk(body: Option<Value>, path: string, requestId: Value, valid: Validator, interests: Interests,
                   response: Value, ctx: Ctx)
    requires Outcome(body, path, InitialContext(requestId), valid, interests) == Step(response, Int(Ok), ctx)
    ensures DoPost(body, path, requestId, valid, interests) ==
      Posted(Int(200), Obj([("response", response), ("code", Int(200))]), ctx)
  {
    DoPostOf(body, path, requestId, valid, interests, Step(response, Int(Ok), ctx));
  }

  /** A step that reaches 400 with the response `{}` is answered "Bad Request". */
  lemma AnsweredBadRequest(body: Option<Value>, path: string, requestId: Value, valid: Validator, interests: Interests,
                           ctx: Ctx)
    requires Outcome(body, path, InitialContext(requestId), valid, interests) == Step(EmptyObj, Int(BadRequest), ctx)
    ensures DoPost(body, path, requestId, valid, interests) ==
      Posted(Int(400), Obj([("error", Str("Bad Request")), ("code", Int(400))]), ctx)
  {
    DoPostOf(body, path, requestId, valid, interests, Step(EmptyObj, Int(BadRequest), ctx));
    EmptyErrorEnvelope(BadRequest);
  }

  /**
   * The outcome `do_POST` reaches on `clients_interests` once the envelope
   * and its arguments are constructed with `n` client ids: 400 for an empty
   * list, 500 when the backend raises, and otherwise the backend's result
   * with 200; in every case the context records `nclients = n`.
   */
  lemma ClientsInterestsOutcome(entries: seq<(string, Value)>, path: string, ctx: Ctx, valid: Validator, interests: Interests,
                                req: Instance, args: seq<(string, Value)>, ci: Instance, ids: Value, n: nat)
    requires Construct(MethodRequestSchema, entries, valid) == Success(req) && |entries| > 0
    requires Strip(path) == "clients_interests"
    requires Attr(req, "arguments") == Some(Obj(args))
    requires Construct(ClientsInterestsSchema, args, valid) == Success(ci)
    requires Attr(ci, "client_ids") == Some(ids) && Len(ids) == Some(n)
    ensures Outcome(Some(Obj(entries)), path, ctx, valid, interests) ==
      if n == 0 then Step(EmptyObj, Int(BadRequest), ctx["nclients" := Int(0)])
      else if interests(ids).Some? then Step(interests(ids).value, Int(Ok), ctx["nclients" := Int(n)])
      else Step(EmptyObj, Int(InternalError), ctx["nclients" := Int(n)])
  {
    ReachesClientsInterests(entries, path, ctx, valid, interests, req);
    ClientsInterestsServes(req, ctx, valid, interests, args, ci);
    ServeRecordsCount(ci, ctx, interests, ids, n);
    assert ClientsContext(ci) == Success(map["nclients" := Int(n)]);
  }

  /**
   * End to end on `clients_interests`: once the envelope and its arguments
   * are constructed with `n > 0` client ids, the request is answered with
   * the backend's result and 200, and the context, before the envelope is
   * merged into it, records `nclients`.
   */
  lemma ClientsInterestsEndToEnd(entries: seq<(string, Value)>, path: string, requestId: Value, valid: Validator, interests: Interests,
                                 req: Instance, args: seq<(string, Value)>, ci: Instance, ids: Value, n: nat)
    requires Construct(MethodRequestSchema, entries, valid) == Success(req) && |entries| > 0
    requires Strip(path) == "clients_interests"
    requires Attr(req, "arguments") == Some(Obj(args))
    requires Construct(ClientsInterestsSchema, args, valid) == Success(ci)
    requires Attr(ci, "client_ids") == Some(ids) && Len(ids) == Some(n)
    requires n > 0 && interests(ids).Some?
    ensures DoPost(Some(Obj(entries)), path, requestId, valid, interests) ==
      Posted(Int(200), Obj([("response", interests(ids).value), ("code", Int(200))]),
             map["request_id" := requestId, "nclients" := Int(n)])
  {
    var ctx := InitialContext(requestId);
    var ctx' := map["request_id" := requestId, "nclients" := Int(n)];
    var s := Step(interests(ids).value, Int(Ok), ctx');
    assert Outcome(Some(Obj(entries)), path, ctx, valid, interests) == s by {
      ClientsInterestsOutcome(entries, path, ctx, valid, interests, req, args, ci, ids, n);
      assert ctx["nclients" := Int(n)] == ctx';
    }
    AnsweredOk(Some(Obj(entries)), path, requestId, valid, interests, interests(ids).value, ctx');
  }

  /**
   * The same request with an empty `client_ids` is answered 400 "Bad
   * Request", not 422, and the context, before the envelope is merged into
   * it, still records `nclients = 0`.
   */
  lemma EmptyClientIdsEndToEnd(entries: seq<(string, Value)>, path: string, requestId: Value, valid: Validator, interests: Interests,
                               req: Instance, args: seq<(string, Value)>, ci: Instance, ids: Value)
    requires Construct(MethodRequestSchema, entries, valid) == Success(req) && |entries| > 0
    requires Strip(path) == "clients_interests"
    requires Attr(req, "arguments") == Some(Obj(args))
    requires Construct(ClientsInterestsSchema, args, valid) == Success(ci)
    requires Attr(ci, "client_ids") == Some(ids) && Len(ids) == Some(0)
    ensures DoPost(Some(Obj(entries)), path, requestId, valid, interests) ==
      Posted(Int(400), Obj([("error", Str("Bad Request")), ("code", Int(400))]),
             map["request_id" := requestId, "nclients" := Int(0)])
  {
    var ctx := InitialContext(requestId);
    var ctx' := map["request_id" := requestId, "nclients" := Int(0)];
    var s := Step(EmptyObj, Int(BadRequest), ctx');
    assert Outcome(Some(Obj(entries)), path, ctx, valid, interests) == s by {
      ClientsInterestsOutcome(entries, path, ctx, valid, interests, req, args, ci, ids, 0);
      assert ctx["nclients" := Int(0)] == ctx';
    }
    AnsweredBadRequest(Some(Obj(entries)), path, requestId, valid, interests, ctx');
  }
}

=== FILE: wrappers.dfy ===
/** Failure-carrying wrappers used throughout the model. */
module Wrappers {

  /** A value that may be missing. */
  datatype Option<+T> = None | Some(value: T)

  /** Either a computed value or the exception that was raised instead. */
  datatype Result<+R, +E> = Success(value: R) | Failure(error: E)

  /** Success with no value, or the exception that was raised. */
  datatype Outcome<+E> = Pass | Fail(error: E)
}
